=== FILE: README.md ===
# distributed_work_queue in Dafny

This project models the two primitives of `distributed_work_queue`:

- **The job status tracker** (`JobStatus`). It mints a request id and records a `QUEUED` status. It reads, updates and polls that record. Records are JSON texts in a key-value store, under the key `"<name space>::<request id>"`.
- **The distributed work queue** (`DistributedWorkQueue`). Producers append JSON-encoded work items to the tail of a Redis list. Workers pop items from the head, decode them, and hand them to a worker function. The worker swallows any failure of that function.

The files:

- `wrappers.dfy` holds `Option`, `Result` and `Outcome`.
- `json.dfy` holds a JSON value type with the text `json.dumps` produces (`Encode`). It also holds a partial decoder (`Decode`) that returns `None` on malformed text, and the round trip `Decode(Encode(v)) == Some(v)`.
- `jobstatus.dfy` gives the tracker's operations as functions of the store's contents: `Read`, `AfterRead`, `Updated` and `Polled`. The classes `DataStore` and `JobStatus` perform the same operations step by step on a `map<string, string>` field, and are proved to agree with those functions.
- `workqueue.dfy` holds the class `DistributedWorkQueue`, with the Redis list as a `seq<string>` field. It has enqueue, dequeue, one worker round, and a bounded run of the worker loop.

Python's `None` is the JSON value `JNull`; `json.loads("null")` is `None` as well. The store is one map standing for either backend, because both backends treat a key the same way. A request id that `uuid.uuid4()` would generate is passed in as a parameter.

Three facts about the code shape the model:

- A terminal `poll_status` does not remove the record; see Findings.
- `enqueue_work` does not check that the item is a mapping. Any JSON value is accepted; items that are not JSON values are outside the model (see Left out).
- An error in `dequeue_work` is swallowed by the same `try` as the worker function.

## Model

| member | source | states |
|---|---|---|
| Json.Encode | src/distributed_work_queue/workqueue.py:27 | the text `json.dumps` writes for a value, with `", "` and `": "` separators |
| Json.Decode | src/distributed_work_queue/workqueue.py:39 | `json.loads`: the value a whole text denotes, or None when the text is malformed or has trailing characters |
| Json.DecodeEncode | src/distributed_work_queue/workqueue.py:27-39 | decoding the text `json.dumps` writes for any value gives that value back |
| Json.SomeTextsDoNotDecode | src/distributed_work_queue/jobstatus.py:96-101 | malformed texts exist: the empty text, `{` and `null!` do not decode |
| Json.DecodesToNull | src/distributed_work_queue/workqueue.py:39 | a text decodes to None if and only if it is `null` |
| Jobs.Lower | src/distributed_work_queue/jobstatus.py:17 | lower-casing keeps the length, maps each upper-case ASCII letter to its lower-case form and keeps every other character |
| Jobs.DatastoreName | src/distributed_work_queue/jobstatus.py:17 | the configured datastore name: the setting lower-cased, `redis` when unset |
| Jobs.SelectBackend | src/distributed_work_queue/jobstatus.py:78-83 | construction succeeds exactly for the names `redis` and `mongodb` and picks Redis exactly for `redis`; any other name is an unsupported-datastore error carrying that name |
| Jobs.BackendSettingIgnoresCase | src/distributed_work_queue/jobstatus.py:17 | the datastore setting is read case-insensitively, and an unset setting selects Redis |
| Jobs.JobStatus.Open | src/distributed_work_queue/jobstatus.py:72-83 | construction fails exactly when the backend name is unsupported, with that error; otherwise a fresh tracker with the given ttl and name space (by default 600 and `STATUS`) over a fresh store of the selected backend |
| Jobs.MakeKey | src/distributed_work_queue/jobstatus.py:120-121 | the key is the name space, then `::`, then the request id |
| Jobs.MakeKeyInjective | src/distributed_work_queue/jobstatus.py:120-121 | distinct ids in one name space have distinct keys, and no key equals its bare id |
| Jobs.ChooseRequestId | src/distributed_work_queue/jobstatus.py:88 | a given non-empty id is kept; a missing or empty id is replaced by the generated one, so the id is non-empty when the generated one is |
| Jobs.QueuedRecord | src/distributed_work_queue/jobstatus.py:88-89 | the record `add_job` writes: the chosen id, status `QUEUED`, no message |
| Jobs.RecordJson | src/distributed_work_queue/jobstatus.py:89 | the dict a record is serialised from: `request_id`, then `status`, then `message` when there is one, as line 109 appends it last |
| Jobs.Truthy | src/distributed_work_queue/jobstatus.py:95 | Python's truth test on a decoded value, as used at lines 95, 106 and 114: None, false, 0, and empty texts, lists and dicts are false |
| Jobs.Get | src/distributed_work_queue/jobstatus.py:115 | `d.get(key)` finds a value exactly when the dict has the key, and then it is the value of the first entry with that key |
| Jobs.IsTerminal | src/distributed_work_queue/jobstatus.py:115 | whether the dict's `status` is `SUCCESS` or `FAIL` |
| Jobs.Put | src/distributed_work_queue/jobstatus.py:107-109 | `d[key] = value`: replaces the entry in place or appends it, so the dict grows by at most one entry |
| Jobs.PutKeepsOrder | src/distributed_work_queue/jobstatus.py:107-109 | an assignment keeps every entry under another key at its position |
| Jobs.PutThenGet | src/distributed_work_queue/jobstatus.py:107-109 | after `d[key] = value`, `key` maps to `value` and every other key keeps its value |
| Jobs.PutAfter | src/distributed_work_queue/jobstatus.py:107-109 | assigning a key leaves the entries before it in place |
| Jobs.Revised | src/distributed_work_queue/jobstatus.py:107-109 | the dict after the assignments of `update_status` |
| Jobs.RevisedFields | src/distributed_work_queue/jobstatus.py:107-109 | after the update, `status` is the new status; `message` is the given message when non-empty and otherwise as before; every other key is as before |
| Jobs.Revise | src/distributed_work_queue/jobstatus.py:107-109 | the update of lines 107-109 on a record: the new status, and the new message only when one is given and non-empty |
| Jobs.ReviseRecord | src/distributed_work_queue/jobstatus.py:107-109 | updating a record's dict sets the status, sets the message only when a non-empty one is given, and keeps every other field |
| Jobs.Corrupt | src/distributed_work_queue/jobstatus.py:95-98 | the condition of the `except` branch: the key is stored, its text is non-empty, and the text does not decode |
| Jobs.Read | src/distributed_work_queue/jobstatus.py:93-102 | whatever `get_status` returns other than None is the decoding of the text stored under the key |
| Jobs.AfterRead | src/distributed_work_queue/jobstatus.py:98-101 | `get_status` leaves the store as it was, or deletes exactly the key of an undecodable record |
| Jobs.Updated | src/distributed_work_queue/jobstatus.py:104-110 | `update_status` on the store's contents: it raises exactly when the read value is truthy and not a dict, and then changes only what the read changed; no key other than the record's changes |
| Jobs.Polled | src/distributed_work_queue/jobstatus.py:112-118 | `poll_status` on the store's contents as written: a non-None result is what `get_status` returns; it raises exactly when that value is truthy and not a dict; a falsy value gives None; the store is what the read left, minus the bare request id exactly when the value is a dict with a terminal status |
| Jobs.PolledIntended | src/distributed_work_queue/jobstatus.py:112-118 | the corrected poll: the same results as `poll_status`, and no key other than the record's own changes; when that key stays, nothing changes |
| Jobs.DataStore.Set | src/distributed_work_queue/jobstatus.py:20-22 | `set` maps the key to the value and changes no other key |
| Jobs.DataStore.Get | src/distributed_work_queue/jobstatus.py:24-26 | `get` returns the stored text, or None when the key is absent |
| Jobs.DataStore.Delete | src/distributed_work_queue/jobstatus.py:28-30 | `delete` removes the key, and nothing else; a missing key is no error |
| Jobs.JobStatus.AddJob | src/distributed_work_queue/jobstatus.py:87-91 | returns the chosen id, and the store maps its key to the QUEUED record and every other key as before |
| Jobs.JobStatus.GetStatus | src/distributed_work_queue/jobstatus.py:93-102 | the result and the new store are `Read` and `AfterRead` of the old store |
| Jobs.JobStatus.UpdateStatus | src/distributed_work_queue/jobstatus.py:104-110 | the outcome and the new store are `Updated` of the old store; a truthy non-object raises |
| Jobs.JobStatus.PollStatus | src/distributed_work_queue/jobstatus.py:112-118 | the result and the new store are `Polled` of the old store; on a terminal status this deletes the bare request id |
| Jobs.ReadStored | src/distributed_work_queue/jobstatus.py:93-97 | `get_status` on any encoded value returns that value and changes nothing |
| Jobs.AddThenRead | src/distributed_work_queue/jobstatus.py:87-97 | right after `add_job`, `get_status` returns the QUEUED record with status `QUEUED`, and deletes nothing |
| Jobs.ReadMissing | src/distributed_work_queue/jobstatus.py:94-95 | `get_status` on an absent key or an empty text returns None and changes nothing |
| Jobs.ReadCorrupt | src/distributed_work_queue/jobstatus.py:98-101 | `get_status` on an undecodable text returns None and deletes exactly that key |
| Jobs.UpdateMissing | src/distributed_work_queue/jobstatus.py:104-106 | `update_status` on an id without a record is a no-op, and no record appears |
| Jobs.UpdateRecord | src/distributed_work_queue/jobstatus.py:104-110 | `update_status` on a stored record succeeds and stores the record with the new status, and the new message if given; nothing else changes |
| Jobs.PollReturnsRead | src/distributed_work_queue/jobstatus.py:112-117 | `poll_status` returns what `get_status` returns whenever that is a non-empty dict |
| Jobs.TerminalPollKeepsRecord | src/distributed_work_queue/jobstatus.py:115-117 | a poll seeing SUCCESS or FAIL returns the record, leaves its namespaced key in the store, and a second poll returns the record again |
| Jobs.TerminalPollDeletesOtherRecord | src/distributed_work_queue/jobstatus.py:115-116 | as written, a terminal poll for an id of the form `<name space>::x` deletes the record of request `x` |
| Jobs.IntendedPollConsumesOnce | src/distributed_work_queue/jobstatus.py:112-118 | with the record deleted under its own key, a terminal poll returns the record once, and the next poll returns None and changes nothing |
| Jobs.NonTerminalPollKeepsStore | src/distributed_work_queue/jobstatus.py:114-117 | polling a dict whose status is not terminal returns it and leaves the store unchanged |
| Jobs.RecordStatus | src/distributed_work_queue/jobstatus.py:115 | `d.get('status')` on a record's dict finds the record's status, and the dict is truthy |
| Jobs.PollStoredTerminal | src/distributed_work_queue/jobstatus.py:112-117 | polling a stored record whose status is SUCCESS or FAIL returns it, and so does the next poll |
| Jobs.PollStoredRunning | src/distributed_work_queue/jobstatus.py:112-117 | polling a stored record whose status is not terminal returns it and changes nothing |
| Jobs.SuccessfulJobPolledTwice | src/distributed_work_queue/jobstatus.py:124-135 | the demonstration's sequence: add, poll, update to SUCCESS, poll, poll. The first poll returns the QUEUED record and changes nothing, the update succeeds, and both later polls return the SUCCESS record |
| Jobs.RunningJobPolledTwice | src/distributed_work_queue/jobstatus.py:104-118 | add, update to a non-terminal status, poll, poll: both polls return that record and the first leaves the store unchanged |
| WorkQueue.Interpret | src/distributed_work_queue/workqueue.py:38-41 | a popped text is returned decoded, or as the text itself when it does not decode, so no popped text is dropped for failing to decode |
| WorkQueue.InterpretEncode | src/distributed_work_queue/workqueue.py:27-41 | every JSON value a producer enqueues, a worker dequeues unchanged |
| WorkQueue.InterpretNull | src/distributed_work_queue/workqueue.py:35-39 | a dequeued item reads as None exactly when its text is `null`, so an enqueued None looks like an empty queue |
| WorkQueue.EncodeAllAppend | src/distributed_work_queue/workqueue.py:27-28 | appending an item appends its text to the stored texts |
| WorkQueue.InterpretAllEncodeAll | src/distributed_work_queue/workqueue.py:27-41 | reading back the texts of a sequence of items gives the items, in order |
| WorkQueue.Handle | src/distributed_work_queue/workqueue.py:48-50 | a round that pops a text passes its reading to the worker function and records that function's outcome for that item |
| WorkQueue.DistributedWorkQueue.EnqueueWork | src/distributed_work_queue/workqueue.py:24-28 | the item's JSON text is appended at the tail, and earlier items are unchanged |
| WorkQueue.DistributedWorkQueue.DequeueWork | src/distributed_work_queue/workqueue.py:30-41 | on an empty queue the result is None and the queue is unchanged; otherwise exactly the head is removed and returned decoded, or as its raw text when it does not decode |
| WorkQueue.DistributedWorkQueue.WorkerStep | src/distributed_work_queue/workqueue.py:45-52 | one round pops exactly the head and passes it to the worker function; the queue afterwards is the same whether the function succeeds or fails |
| WorkQueue.DistributedWorkQueue.RunWorker | src/distributed_work_queue/workqueue.py:43-52 | over n rounds, the first n items are each handled once, in queue order, and are gone from the queue; the remaining rounds wait |
| WorkQueue.FifoRoundTrip | src/distributed_work_queue/workqueue.py:24-41 | enqueuing items on an empty queue and dequeuing as many returns exactly those items in the same order |

## Left out

- Redis and MongoDB client calls, connection settings and index creation. One in-memory map stands for both backends (`Jobs.DataStore`).
- Jobs.DataStore.Set: the time-to-live is carried but not enforced. No record expires. MongoDB ignores it anyway. Redis `setex` rejects a non-positive ttl, and that error is not modelled.
- Connection failures of either store. An error in the dequeue is swallowed by the worker loop like any other.
- WorkQueue.DistributedWorkQueue.DequeueWork: `blpop` blocks until an item arrives, or until the timeout expires. There is no other producer in a sequential model, so an empty queue ends the wait at once with None. The timeout is carried but not used.
- WorkQueue.DistributedWorkQueue.WorkerStep: a round on an empty queue is reported as waiting. The source would block there, and it never calls the worker function with a timed-out None.
- The worker function's own effects. It is a total function from the item to success or failure, and its failure message stands for the printed exception.
- WorkQueue.DistributedWorkQueue.RunWorker: the endless `while True` loop is run for a given number of rounds.
- Multiple processes and concurrent workers, and `multiprocessing`.
- Reading the environment (`dotenv`), `DEBUG`, `FalconLogger` logging, and `print`. The datastore setting is a parameter of `Jobs.JobStatus.Open`.
- `uuid.uuid4()`. The generated id is a parameter of `Jobs.JobStatus.AddJob`.
- The work queue's Redis connection returns bytes rather than text (no `decode_responses`). Items are modelled as text. A bytes payload that is not valid UTF-8 makes `json.loads` raise `UnicodeDecodeError`, which the `except` for malformed JSON does not catch. The item has already been popped, and the worker loop swallows the error, so the code loses that item; the model has no such payload.
- WorkQueue.DistributedWorkQueue.EnqueueWork: items are JSON values. The code accepts any Python object, raises `TypeError` on an item `json.dumps` cannot serialise (a `set`, say) and then pushes nothing. It also turns tuples into lists and non-string dict keys into strings, so such an item does not come back unchanged.
- Json.Decode: only the layout `json.dumps` writes is accepted. That means `", "` and `": "` separators, no other whitespace, and integers but no floats. Only `"` and `\` are escaped, and `\n`, `\uXXXX` and the other escapes `json.dumps` writes for control and non-ASCII characters are not modelled. In the other direction, `Decode` accepts two kinds of text that `json.loads` refuses: a raw control character such as a newline inside a string, and leading zeros (`01`, `-01`). A duplicate key keeps both entries (`json.loads` keeps the last).
- Json.Encode: a text with a control or non-ASCII character is written unescaped, where `json.dumps` writes `\n` or `\u00e9`.
- Jobs.Read: a stored text that `json.loads` accepts but `Decode` refuses is treated as undecodable. Examples are the compact `{"status":"SUCCESS"}` and a record whose message `json.dumps` wrote with `\n` or `\u00e9`. So `get_status`, and through it `update_status` and `poll_status`, delete such a record in the model where the code returns it. The other way round, a stored text that `Decode` accepts but `json.loads` refuses (a raw newline inside a string, or a leading zero) is deleted by the code and returned as None. The model returns its decoded value and keeps the key, so `update_status` rewrites it and `poll_status` returns it.
- WorkQueue.Interpret: a popped text that `json.loads` accepts but `Decode` refuses is returned raw rather than decoded. A popped text that `Decode` accepts but `json.loads` refuses (a raw newline inside a string, or a leading zero) is returned decoded, where the code returns the raw text.
- Jobs.Lower: lower-cases ASCII letters only, whereas `str.lower` covers all of Unicode.
- The `__main__` demonstrations of both files. The job demonstration's sequence of calls, including its poll before the update, is restated as `Jobs.SuccessfulJobPolledTwice`; its printing is not modelled.

## Findings

| source | as written | input that shows it | evidently intended | confidence | as-written member | corrected member |
|---|---|---|---|---|---|---|
| src/distributed_work_queue/jobstatus.py:116 | on a terminal status `poll_status` deletes the key `request_id` rather than `make_key(request_id)`, so the record survives, and an id of the form `STATUS::x` deletes the record of `x` (`Jobs.TerminalPollDeletesOtherRecord`) | `add_job("r")`, `update_status("r", "SUCCESS")`, then `poll_status("r")` twice: the second poll returns the SUCCESS record again, not None as the comment at line 135 expects | delete the record under `make_key(request_id)` so a terminal status is consumed once | not executed | Jobs.TerminalPollKeepsRecord | Jobs.IntendedPollConsumesOnce |

`Jobs.JobStatus.PollStatus` keeps the behaviour as written (`Jobs.Polled`). `Jobs.PolledIntended` is the corrected poll.

=== FILE: jobstatus.dfy ===
/**
  The job status tracker: records `{request_id, status, message?}` kept as
  JSON text in a key-value store under keys "<namespace>::<request id>".

  The store is an in-memory map standing for either backend (Redis or
  MongoDB); both treat a key the same way, and the time-to-live is carried
  but not enforced. The operations of the tracker are first given as
  functions of the store's contents (Read, AfterRead, Updated, Polled); the
  `JobStatus` class performs them step by step on a `DataStore` object and
  is proved to agree with them. The lemmas at the end state what a caller can
  rely on, including that a terminal poll does not remove the record.
*/
module Jobs {
  import opened Wrappers
  import opened Json

  const DefaultTtl := 600
  const DefaultNameSpace := "STATUS"

  const Queued := "QUEUED"
  const Succeeded := "SUCCESS"
  const Failed := "FAIL"

  // ---------------------------------------------------------------------------
  // Backend selection

  datatype Backend = Redis | MongoDb

  datatype ConfigError = UnsupportedDatastore(name: string)

  /** ASCII lower-casing, as `str.lower` does on ASCII text. */
  function Lower(s: string): (r: string)
    ensures |r| == |s|
    ensures forall i :: 0 <= i < |s| ==> r[i] == if 'A' <= s[i] <= 'Z' then (s[i] as int + 32) as char else s[i]
    ensures forall i :: 0 <= i < |s| ==> !('A' <= r[i] <= 'Z')
  {
    if s == [] then []
    else [if 'A' <= s[0] <= 'Z' then (s[0] as int + 32) as char else s[0]] + Lower(s[1..])
  }

  /** The configured datastore name: the setting lower-cased, "redis" when it is unset. */
  function DatastoreName(setting: Option<string>): string {
    Lower(if setting.Some? then setting.value else "redis")
  }

  /** The backend chosen when the tracker is constructed; any other name is a configuration error. */
  function SelectBackend(setting: Option<string>): (r: Result<Backend, ConfigError>)
    ensures r.Success? <==> DatastoreName(setting) == "redis" || DatastoreName(setting) == "mongodb"
    ensures r.Success? ==> (r.value == Redis <==> DatastoreName(setting) == "redis")
    ensures r.Failure? ==> r.error == UnsupportedDatastore(DatastoreName(setting))
  {
    var name := DatastoreName(setting);
    if name == "redis" then Success(Redis)
    else if name == "mongodb" then Success(MongoDb)
    else Failure(UnsupportedDatastore(name))
  }

  lemma {:induction false} LowerIdempotent(s: string)
    ensures Lower(Lower(s)) == Lower(s)
  {
    if s != [] {
      LowerIdempotent(s[1..]);
      assert Lower(s)[1..] == Lower(s[1..]);
    }
  }

  /** The setting is read case-insensitively, and an unset setting selects Redis. */
  lemma BackendSettingIgnoresCase(s: string)
    ensures SelectBackend(Some(s)) == SelectBackend(Some(Lower(s)))
    ensures SelectBackend(None) == Success(Redis)
  {
    LowerIdempotent(s);
    assert DatastoreName(Some(Lower(s))) == DatastoreName(Some(s));
    LowerKeepsLowerCase("redis");
  }

  /** Text without upper-case letters is its own lower-case form. */
  lemma {:induction false} LowerKeepsLowerCase(s: string)
    requires forall i :: 0 <= i < |s| ==> !('A' <= s[i] <= 'Z')
    ensures Lower(s) == s
  {
    if s != [] {
      LowerKeepsLowerCase(s[1..]);
    }
  }

  // ---------------------------------------------------------------------------
  // Keys and records

  /** The key a request's record is stored under: the name space, "::", then the id. */
  function MakeKey(nameSpace: string, requestId: string): (key: string)
    ensures |key| == |nameSpace| + 2 + |requestId|
    ensures key[..|nameSpace|] == nameSpace && key[|nameSpace|..|nameSpace| + 2] == "::"
    ensures key[|nameSpace| + 2..] == requestId
  {
    nameSpace + "::" + requestId
  }

  /** Distinct ids in one namespace have distinct keys, and no key is the bare id. */
  lemma MakeKeyInjective(nameSpace: string, a: string, b: string)
    ensures MakeKey(nameSpace, a) == MakeKey(nameSpace, b) <==> a == b
    ensures MakeKey(nameSpace, a) != a
  {
    assert MakeKey(nameSpace, a)[|nameSpace| + 2..] == a;
    assert MakeKey(nameSpace, b)[|nameSpace| + 2..] == b;
  }

  /** The id `add_job` uses: the one given, unless it is missing or empty, else a freshly generated one. */
  function ChooseRequestId(requested: Option<string>, generated: string): (id: string)
    ensures generated != "" ==> id != ""
    ensures requested.Some? && requested.value != "" ==> id == requested.value
    ensures !(requested.Some? && requested.value != "") ==> id == generated
  {
    if requested.Some? && requested.value != "" then requested.value else generated
  }

  datatype JobRecord = JobRecord(requestId: string, status: string, message: Option<string>)

  /** The record `add_job` writes. */
  function QueuedRecord(requestId: string): JobRecord {
    JobRecord(requestId, Queued, None)
  }

  /** The dict a record is serialised from, with keys in insertion order. */
  function RecordJson(r: JobRecord): Json {
    JObj([Member("request_id", JStr(r.requestId)), Member("status", JStr(r.status))]
         + if r.message.Some? then [Member("message", JStr(r.message.value))] else [])
  }

  /** Python's truth value of a decoded JSON value. */
  predicate Truthy(v: Json) {
    match v
    case JNull => false
    case JBool(b) => b
    case JInt(i) => i != 0
    case JStr(s) => s != ""
    case JArr(items) => items != []
    case JObj(members) => members != []
  }

  /** `d.get(key)` on a decoded object. */
  function Get(members: seq<Member>, key: string): (r: Option<Json>)
    ensures r.Some? <==> exists i :: 0 <= i < |members| && members[i].key == key
    ensures r.Some? ==> exists i :: 0 <= i < |members| && members[i].key == key && r.value == members[i].value
                                   && forall j :: 0 <= j < i ==> members[j].key != key
  {
    if members == [] then None
    else if members[0].key == key then Some(members[0].value)
    else
      var r := Get(members[1..], key);
      assert forall i :: 1 <= i < |members| ==> members[i] == members[1..][i - 1];
      assert r.Some? ==> exists i :: 1 <= i < |members| && members[i].key == key && r.value == members[i].value
                                     && forall j :: 0 <= j < i ==> members[j].key != key;
      r
  }

  /** `d[key] = value`: replaces the value of an existing key in place, or appends the key. */
  function Put(members: seq<Member>, key: string, value: Json): (r: seq<Member>)
    ensures |members| <= |r| <= |members| + 1
  {
    if members == [] then [Member(key, value)]
    else if members[0].key == key then [Member(key, value)] + members[1..]
    else [members[0]] + Put(members[1..], key, value)
  }

  /** `d[key] = value` keeps the insertion order: every entry under another key stays at its position. */
  lemma {:induction false} PutKeepsOrder(members: seq<Member>, key: string, value: Json, i: nat)
    requires i < |members| && members[i].key != key
    ensures Put(members, key, value)[i] == members[i]
  {
    if members[0].key != key && i > 0 {
      PutKeepsOrder(members[1..], key, value, i - 1);
      assert Put(members, key, value)[1..] == Put(members[1..], key, value);
    }
  }

  /** After `d[key] = value`, `key` maps to `value` and every other key to what it did before. */
  lemma {:induction false} PutThenGet(members: seq<Member>, key: string, value: Json, other: string)
    ensures Get(Put(members, key, value), key) == Some(value)
    ensures other != key ==> Get(Put(members, key, value), other) == Get(members, other)
  {
    if members != [] && members[0].key != key {
      PutThenGet(members[1..], key, value, other);
      var p := Put(members, key, value);
      assert p[1..] == Put(members[1..], key, value);
    }
  }

  /** Whether `d.get('status', '')` is one of the terminal statuses. */
  predicate IsTerminal(members: seq<Member>) {
    Get(members, "status") == Some(JStr(Succeeded)) || Get(members, "status") == Some(JStr(Failed))
  }

  /** The fields `update_status` rewrites: the status always, the message only when one is given. */
  function Revised(members: seq<Member>, status: string, message: Option<string>): seq<Member> {
    var withStatus := Put(members, "status", JStr(status));
    if message.Some? && message.value != "" then Put(withStatus, "message", JStr(message.value))
    else withStatus
  }

  /**
    After an update the status is the new one; the message is the given one
    when that is non-empty and is otherwise as before; every other key is as before.
  */
  lemma RevisedFields(members: seq<Member>, status: string, message: Option<string>, other: string)
    requires other != "status" && other != "message"
    ensures Get(Revised(members, status, message), "status") == Some(JStr(status))
    ensures Get(Revised(members, status, message), "message")
         == if message.Some? && message.value != "" then Some(JStr(message.value)) else Get(members, "message")
    ensures Get(Revised(members, status, message), other) == Get(members, other)
  {
    var withStatus := Put(members, "status", JStr(status));
    PutThenGet(members, "status", JStr(status), "message");
    PutThenGet(members, "status", JStr(status), other);
    if message.Some? && message.value != "" {
      PutThenGet(withStatus, "message", JStr(message.value), "status");
      PutThenGet(withStatus, "message", JStr(message.value), other);
    }
  }

  /** The record after an update, stated on the record itself. */
  function Revise(r: JobRecord, status: string, message: Option<string>): JobRecord {
    r.(status := status, message := if message.Some? && message.value != "" then message else r.message)
  }

  /** Assigning a key that none of `prefix` carries leaves `prefix` in place. */
  lemma {:induction false} PutAfter(prefix: seq<Member>, rest: seq<Member>, key: string, value: Json)
    requires forall i :: 0 <= i < |prefix| ==> prefix[i].key != key
    ensures Put(prefix + rest, key, value) == prefix + Put(rest, key, value)
  {
    if prefix != [] {
      var whole := prefix + rest;
      assert whole != [] && whole[0] == prefix[0] && whole[0].key != key;
      assert whole[1..] == prefix[1..] + rest;
      assert Put(whole, key, value) == [prefix[0]] + Put(whole[1..], key, value);
      PutAfter(prefix[1..], rest, key, value);
      assert Put(whole, key, value) == [prefix[0]] + (prefix[1..] + Put(rest, key, value));
      assert prefix == [prefix[0]] + prefix[1..];
    } else {
      assert prefix + rest == rest;
    }
  }

  /** Updating a record's dict gives the dict of the updated record: no other field changes. */
  lemma ReviseRecord(r: JobRecord, status: string, message: Option<string>)
    ensures JObj(Revised(RecordJson(r).members, status, message)) == RecordJson(Revise(r, status, message))
  {
    var ms := RecordJson(r).members;
    var idField := Member("request_id", JStr(r.requestId));
    var statusField := Member("status", JStr(status));
    var tail := ms[2..];
    assert ms == [idField] + ([ms[1]] + tail);
    PutAfter([idField], [ms[1]] + tail, "status", JStr(status));
    var withStatus := Put(ms, "status", JStr(status));
    assert withStatus == [idField, statusField] + tail;
    if message.Some? && message.value != "" {
      var messageField := Member("message", JStr(message.value));
      PutAfter([idField, statusField], tail, "message", JStr(message.value));
      assert Put(tail, "message", JStr(message.value)) == [messageField];
    }
  }

  // ---------------------------------------------------------------------------
  // The tracker's operations as functions of the store's contents

  /** A problem `update_status` or `poll_status` raises on: the stored JSON is truthy but not an object. */
  datatype Fault = NotAnObject(found: Json)

  /** Whether the text stored under `key` is non-empty and fails to decode. */
  predicate Corrupt(entries: map<string, string>, key: string) {
    key in entries && entries[key] != "" && Decode(entries[key]).None?
  }

  /** What `get_status` returns: the decoded record, or None when it is missing, empty or undecodable. */
  function Read(entries: map<string, string>, key: string): (v: Json)
    ensures v != JNull ==> key in entries && Decode(entries[key]) == Some(v)
  {
    if key in entries && entries[key] != "" then
      match Decode(entries[key])
      case Some(v) => v
      case None => JNull
    else JNull
  }

  /** The store after `get_status`: an undecodable record is deleted, nothing else changes. */
  function AfterRead(entries: map<string, string>, key: string): (e: map<string, string>)
    ensures e == entries || (Corrupt(entries, key) && e == entries - {key})
  {
    if Corrupt(entries, key) then entries - {key} else entries
  }

  /** `update_status`: the outcome and the store afterwards. */
  function Updated(entries: map<string, string>, key: string, status: string, message: Option<string>)
    : (r: (Outcome<Fault>, map<string, string>))
    ensures r.0.Fail? <==> Truthy(Read(entries, key)) && !Read(entries, key).JObj?
    ensures r.0.Fail? ==> r.1 == AfterRead(entries, key)
    ensures forall k :: k != key ==> (k in r.1 <==> k in entries)
    ensures forall k :: k != key && k in entries ==> r.1[k] == entries[k]
  {
    var v := Read(entries, key);
    var e := AfterRead(entries, key);
    if !Truthy(v) then (Pass, e)
    else if v.JObj? then (Pass, e[key := Encode(JObj(Revised(v.members, status, message)))])
    else (Fail(NotAnObject(v)), e)
  }

  /**
    `poll_status`: the value returned and the store afterwards. On a terminal
    status the source deletes the key `requestId`, not the record's key.
  */
  function Polled(entries: map<string, string>, nameSpace: string, requestId: string)
    : (r: (Result<Json, Fault>, map<string, string>))
    ensures r.0.Success? && r.0.value != JNull ==> r.0.value == Read(entries, MakeKey(nameSpace, requestId))
    ensures r.0.Failure? ==> r.0.error == NotAnObject(Read(entries, MakeKey(nameSpace, requestId)))
    ensures var v := Read(entries, MakeKey(nameSpace, requestId));
      && (r.0.Failure? <==> Truthy(v) && !v.JObj?)
      && (!Truthy(v) ==> r.0 == Success(JNull))
    ensures var v := Read(entries, MakeKey(nameSpace, requestId));
      var after := AfterRead(entries, MakeKey(nameSpace, requestId));
      r.1 == if Truthy(v) && v.JObj? && IsTerminal(v.members) then after - {requestId} else after
  {
    var key := MakeKey(nameSpace, requestId);
    var v := Read(entries, key);
    var e := AfterRead(entries, key);
    if !Truthy(v) then (Success(JNull), e)
    else if !v.JObj? then (Failure(NotAnObject(v)), e)
    else if IsTerminal(v.members) then (Success(v), e - {requestId})
    else (Success(v), e)
  }

  /** `poll_status` as evidently intended: a terminal record is deleted under its own key. */
  function PolledIntended(entries: map<string, string>, nameSpace: string, requestId: string)
    : (r: (Result<Json, Fault>, map<string, string>))
    ensures r.0 == Polled(entries, nameSpace, requestId).0
    ensures forall k :: k != MakeKey(nameSpace, requestId) && k in entries ==> k in r.1 && r.1[k] == entries[k]
    ensures MakeKey(nameSpace, requestId) in r.1 ==> r.1 == entries
  {
    var key := MakeKey(nameSpace, requestId);
    var v := Read(entries, key);
    var e := AfterRead(entries, key);
    if !Truthy(v) then (Success(JNull), e)
    else if !v.JObj? then (Failure(NotAnObject(v)), e)
    else if IsTerminal(v.members) then (Success(v), e - {key})
    else (Success(v), e)
  }

  // ---------------------------------------------------------------------------
  // The store and the tracker

  /** The key-value store behind the tracker (either backend). */
  class DataStore {
    const backend: Backend
    var entries: map<string, string>

    constructor (backend: Backend, entries: map<string, string>)
      ensures this.backend == backend && this.entries == entries
    {
      this.backend := backend;
      this.entries := entries;
    }

    /** Writes `value` under `key`; the time-to-live is not modelled. */
    method Set(key: string, value: string, ttl: int)
      modifies this
      ensures entries == old(entries)[key := value]
    {
      entries := entries[key := value];
    }

    method Get(key: string) returns (value: Option<string>)
      ensures value.Some? <==> key in entries
      ensures value.Some? ==> value.value == entries[key]
    {
      value := if key in entries then Some(entries[key]) else None;
    }

    /** Removes `key`; deleting a missing key does nothing. */
    method Delete(key: string)
      modifies this
      ensures entries == old(entries) - {key}
    {
      entries := entries - {key};
    }
  }

  class JobStatus {
    const nameSpace: string
    const ttl: int
    const datastore: DataStore

    constructor (ttl: int, nameSpace: string, datastore: DataStore)
      ensures this.ttl == ttl && this.nameSpace == nameSpace && this.datastore == datastore
    {
      this.ttl := ttl;
      this.nameSpace := nameSpace;
      this.datastore := datastore;
    }

    /**
      Construction: selects the backend named by the datastore setting over
      the store's current contents `existing`, or fails on an unsupported name.
    */
    static method Open(setting: Option<string>, existing: map<string, string>,
                       ttl: int := DefaultTtl, nameSpace: string := DefaultNameSpace)
      returns (r: Result<JobStatus, ConfigError>)
      ensures r.Failure? <==> SelectBackend(setting).Failure?
      ensures r.Failure? ==> r.error == SelectBackend(setting).error
      ensures r.Success? ==> fresh(r.value) && fresh(r.value.datastore)
      ensures r.Success? ==> r.value.ttl == ttl && r.value.nameSpace == nameSpace
      ensures r.Success? ==> r.value.datastore.backend == SelectBackend(setting).value
      ensures r.Success? ==> r.value.datastore.entries == existing
    {
      match SelectBackend(setting)
      case Failure(e) =>
        r := Failure(e);
      case Success(backend) =>
        var store := new DataStore(backend, existing);
        var tracker := new JobStatus(ttl, nameSpace, store);
        r := Success(tracker);
    }

    method AddJob(requested: Option<string>, generated: string) returns (requestId: string)
      modifies datastore
      ensures requestId == ChooseRequestId(requested, generated)
      ensures datastore.entries
           == old(datastore.entries)[MakeKey(nameSpace, requestId) := Encode(RecordJson(QueuedRecord(requestId)))]
    {
      requestId := ChooseRequestId(requested, generated);
      var record := RecordJson(QueuedRecord(requestId));
      datastore.Set(MakeKey(nameSpace, requestId), Encode(record), ttl);
    }

    method GetStatus(requestId: string) returns (v: Json)
      modifies datastore
      ensures v == Read(old(datastore.entries), MakeKey(nameSpace, requestId))
      ensures datastore.entries == AfterRead(old(datastore.entries), MakeKey(nameSpace, requestId))
    {
      var data := datastore.Get(MakeKey(nameSpace, requestId));
      if data.Some? && data.value != "" {
        match Decode(data.value)
        case Some(d) =>
          return d;
        case None =>
          datastore.Delete(MakeKey(nameSpace, requestId));
          return JNull;
      }
      return JNull;
    }

    method UpdateStatus(requestId: string, status: string, message: Option<string>) returns (outcome: Outcome<Fault>)
      modifies datastore
      ensures (outcome, datastore.entries)
           == Updated(old(datastore.entries), MakeKey(nameSpace, requestId), status, message)
    {
      var data := GetStatus(requestId);
      if Truthy(data) {
        if !data.JObj? {
          return Fail(NotAnObject(data));
        }
        var revised := JObj(Revised(data.members, status, message));
        datastore.Set(MakeKey(nameSpace, requestId), Encode(revised), ttl);
      }
      return Pass;
    }

    method PollStatus(requestId: string) returns (r: Result<Json, Fault>)
      modifies datastore
      ensures (r, datastore.entries) == Polled(old(datastore.entries), nameSpace, requestId)
    {
      var data := GetStatus(requestId);
      if Truthy(data) {
        if !data.JObj? {
          return Failure(NotAnObject(data));
        }
        if IsTerminal(data.members) {
          datastore.Delete(requestId);
        }
        return Success(data);
      }
      return Success(JNull);
    }
  }

  // ---------------------------------------------------------------------------
  // Properties

  /** `get_status` on an encoded value returns that value and changes nothing. */
  lemma ReadStored(entries: map<string, string>, key: string, v: Json)
    requires key in entries && entries[key] == Encode(v)
    ensures Read(entries, key) == v && AfterRead(entries, key) == entries
  {
    DecodeEncode(v);
    EncodeOpens(v);
  }

  /** Right after `add_job(id)`, `get_status(id)` returns the QUEUED record and deletes nothing. */
  lemma AddThenRead(entries: map<string, string>, nameSpace: string, requestId: string)
    ensures var key := MakeKey(nameSpace, requestId);
      var e := entries[key := Encode(RecordJson(QueuedRecord(requestId)))];
      && Read(e, key) == RecordJson(QueuedRecord(requestId))
      && Get(Read(e, key).members, "status") == Some(JStr(Queued))
      && AfterRead(e, key) == e
  {
    var key := MakeKey(nameSpace, requestId);
    var record := RecordJson(QueuedRecord(requestId));
    var e := entries[key := Encode(record)];
    ReadStored(e, key, record);
    assert record.members[1] == Member("status", JStr(Queued));
  }

  /** `get_status` on a missing key or an empty value returns None and changes nothing. */
  lemma ReadMissing(entries: map<string, string>, key: string)
    requires key !in entries || entries[key] == ""
    ensures Read(entries, key) == JNull && AfterRead(entries, key) == entries
  {
  }

  /** `get_status` on an undecodable value returns None and deletes exactly that key. */
  lemma ReadCorrupt(entries: map<string, string>, key: string)
    requires key in entries && entries[key] != "" && Decode(entries[key]).None?
    ensures Read(entries, key) == JNull
    ensures AfterRead(entries, key).Keys == entries.Keys - {key}
    ensures forall k :: k in entries && k != key ==> AfterRead(entries, key)[k] == entries[k]
  {
  }

  /** `update_status` for an id without a record is a no-op and creates no record. */
  lemma UpdateMissing(entries: map<string, string>, key: string, status: string, message: Option<string>)
    requires key !in entries
    ensures Updated(entries, key, status, message) == (Pass, entries)
    ensures Read(Updated(entries, key, status, message).1, key) == JNull
  {
  }

  /** `update_status` on a stored record rewrites it with the new status, and message if given. */
  lemma UpdateRecord(entries: map<string, string>, key: string, r: JobRecord, status: string, message: Option<string>)
    requires key in entries && entries[key] == Encode(RecordJson(r))
    ensures Updated(entries, key, status, message) == (Pass, entries[key := Encode(RecordJson(Revise(r, status, message)))])
  {
    DecodeEncode(RecordJson(r));
    ReviseRecord(r, status, message);
  }

  /** `poll_status` returns what `get_status` returns, whenever that is a non-empty object. */
  lemma PollReturnsRead(entries: map<string, string>, nameSpace: string, requestId: string)
    requires var v := Read(entries, MakeKey(nameSpace, requestId)); v.JObj? && Truthy(v)
    ensures Polled(entries, nameSpace, requestId).0 == Success(Read(entries, MakeKey(nameSpace, requestId)))
  {
  }

  /**
    As written, a poll that sees a terminal status deletes the bare id, so the
    record is still stored and a second poll returns it again.
  */
  lemma TerminalPollKeepsRecord(entries: map<string, string>, nameSpace: string, requestId: string)
    requires var v := Read(entries, MakeKey(nameSpace, requestId));
      v.JObj? && Truthy(v) && IsTerminal(v.members)
    ensures var key := MakeKey(nameSpace, requestId);
      var v := Read(entries, key);
      var (first, after) := Polled(entries, nameSpace, requestId);
      && first == Success(v)
      && key in after && after[key] == entries[key]
      && Polled(after, nameSpace, requestId).0 == Success(v)
  {
    var key := MakeKey(nameSpace, requestId);
    MakeKeyInjective(nameSpace, requestId, requestId);
    var after := Polled(entries, nameSpace, requestId).1;
    assert after == entries - {requestId};
    assert Read(after, key) == Read(entries, key);
  }

  /**
    As written, a terminal poll for an id that is itself a key of the name
    space deletes the record of another request.
  */
  lemma TerminalPollDeletesOtherRecord(entries: map<string, string>, nameSpace: string, other: string)
    requires var v := Read(entries, MakeKey(nameSpace, MakeKey(nameSpace, other)));
      v.JObj? && Truthy(v) && IsTerminal(v.members)
    ensures MakeKey(nameSpace, other) !in Polled(entries, nameSpace, MakeKey(nameSpace, other)).1
  {
  }

  /** With the record deleted under its own key, a terminal poll is consumed once. */
  lemma IntendedPollConsumesOnce(entries: map<string, string>, nameSpace: string, requestId: string)
    requires var v := Read(entries, MakeKey(nameSpace, requestId));
      v.JObj? && Truthy(v) && IsTerminal(v.members)
    ensures var key := MakeKey(nameSpace, requestId);
      var (first, after) := PolledIntended(entries, nameSpace, requestId);
      && first == Success(Read(entries, key))
      && key !in after
      && PolledIntended(after, nameSpace, requestId) == (Success(JNull), after)
  {
  }

  /** Polling a stored object whose status is not terminal returns it and leaves the store as it was. */
  lemma NonTerminalPollKeepsStore(entries: map<string, string>, nameSpace: string, requestId: string)
    requires var v := Read(entries, MakeKey(nameSpace, requestId));
      v.JObj? && Truthy(v) && !IsTerminal(v.members)
    ensures Polled(entries, nameSpace, requestId)
         == (Success(Read(entries, MakeKey(nameSpace, requestId))), entries)
  {
  }

  /** The status field of a record's dict, found by `d.get('status')`. */
  lemma RecordStatus(r: JobRecord)
    ensures Get(RecordJson(r).members, "status") == Some(JStr(r.status))
    ensures Truthy(RecordJson(r))
  {
    assert RecordJson(r).members[1] == Member("status", JStr(r.status));
  }

  /** Polling a stored record with a terminal status returns it, twice, as written. */
  lemma PollStoredTerminal(entries: map<string, string>, nameSpace: string, requestId: string, r: JobRecord)
    requires MakeKey(nameSpace, requestId) in entries
    requires entries[MakeKey(nameSpace, requestId)] == Encode(RecordJson(r))
    requires r.status == Succeeded || r.status == Failed
    ensures var (first, after) := Polled(entries, nameSpace, requestId);
      first == Success(RecordJson(r)) && Polled(after, nameSpace, requestId).0 == Success(RecordJson(r))
  {
    ReadStored(entries, MakeKey(nameSpace, requestId), RecordJson(r));
    RecordStatus(r);
    TerminalPollKeepsRecord(entries, nameSpace, requestId);
  }

  /** Polling a stored record with any other status returns it and changes nothing. */
  lemma PollStoredRunning(entries: map<string, string>, nameSpace: string, requestId: string, r: JobRecord)
    requires MakeKey(nameSpace, requestId) in entries
    requires entries[MakeKey(nameSpace, requestId)] == Encode(RecordJson(r))
    requires r.status != Succeeded && r.status != Failed
    ensures Polled(entries, nameSpace, requestId) == (Success(RecordJson(r)), entries)
  {
    ReadStored(entries, MakeKey(nameSpace, requestId), RecordJson(r));
    RecordStatus(r);
    NonTerminalPollKeepsStore(entries, nameSpace, requestId);
  }

  /**
    The demonstration at the end of jobstatus.py: add_job, poll_status,
    update_status to SUCCESS, then two polls. The first poll returns the
    QUEUED record and changes nothing; both later polls return the SUCCESS
    record, so the last one does not return None.
  */
  lemma SuccessfulJobPolledTwice(entries: map<string, string>, nameSpace: string, requestId: string,
                                 message: Option<string>)
    ensures var key := MakeKey(nameSpace, requestId);
      var queued := RecordJson(QueuedRecord(requestId));
      var done := RecordJson(Revise(QueuedRecord(requestId), Succeeded, message));
      var added := entries[key := Encode(queued)];
      var (early, settled) := Polled(added, nameSpace, requestId);
      var (outcome, updated) := Updated(settled, key, Succeeded, message);
      var (first, polled) := Polled(updated, nameSpace, requestId);
      && early == Success(queued) && settled == added
      && outcome == Pass
      && first == Success(done)
      && Polled(polled, nameSpace, requestId).0 == Success(done)
  {
    var key := MakeKey(nameSpace, requestId);
    var added := entries[key := Encode(RecordJson(QueuedRecord(requestId)))];
    PollStoredRunning(added, nameSpace, requestId, QueuedRecord(requestId));
    UpdateRecord(added, key, QueuedRecord(requestId), Succeeded, message);
    var updated := Updated(added, key, Succeeded, message).1;
    PollStoredTerminal(updated, nameSpace, requestId, Revise(QueuedRecord(requestId), Succeeded, message));
  }

  /** A job with a non-terminal status is left in place by polling: two polls return the same record. */
  lemma RunningJobPolledTwice(entries: map<string, string>, nameSpace: string, requestId: string, status: string)
    requires status != Succeeded && status != Failed
    ensures var key := MakeKey(nameSpace, requestId);
      var running := RecordJson(Revise(QueuedRecord(requestId), status, None));
      var added := entries[key := Encode(RecordJson(QueuedRecord(requestId)))];
      var (outcome, updated) := Updated(added, key, status, None);
      var (first, polled) := Polled(updated, nameSpace, requestId);
      && outcome == Pass
      && first == Success(running)
      && polled == updated
      && Polled(polled, nameSpace, requestId).0 == Success(running)
  {
    var key := MakeKey(nameSpace, requestId);
    var added := entries[key := Encode(RecordJson(QueuedRecord(requestId)))];
    UpdateRecord(added, key, QueuedRecord(requestId), status, None);
    var updated := Updated(added, key, status, None).1;
    PollStoredRunning(updated, nameSpace, requestId, Revise(QueuedRecord(requestId), status, None));
  }
}

=== FILE: json.dfy ===
/**
  The serialisation used by both the status tracker and the work queue: a
  JSON value, the text `json.dumps` produces for it, and a partial decoder in
  the role of `json.loads`. Python's `None` is `JNull`, so a decoded `null`
  and an absent value are the same thing, as they are in the source.

  The decoder reads the layout the encoder writes (", " between items and
  ": " after a key, the separators `json.dumps` uses by default). Every text
  the encoder can produce decodes back to its value, and texts such as "" or
  "{" do not decode at all.
*/
module Json {
  import opened Wrappers

  datatype Json =
    | JNull
    | JBool(b: bool)
    | JInt(i: int)
    | JStr(s: string)
    | JArr(items: seq<Json>)
    | JObj(members: seq<Member>)

  /** One key/value pair of an object, kept in insertion order as Python dicts are. */
  datatype Member = Member(key: string, value: Json)

  // ---------------------------------------------------------------------------
  // Numbers

  predicate IsDigit(c: char) {
    '0' <= c <= '9'
  }

  predicate AllDigits(s: string) {
    forall i :: 0 <= i < |s| ==> IsDigit(s[i])
  }

  function DigitChar(d: nat): (c: char)
    requires d < 10
    ensures IsDigit(c)
  {
    ('0' as int + d) as char
  }

  function DigitValue(c: char): nat
    requires IsDigit(c)
  {
    c as int - '0' as int
  }

  /** Decimal text of a natural number, without leading zeros. */
  function NatText(n: nat): string
    decreases n
  {
    if n < 10 then [DigitChar(n)] else NatText(n / 10) + [DigitChar(n % 10)]
  }

  /** The number a run of decimal digits denotes. */
  function DigitsValue(s: string): nat
    requires AllDigits(s)
  {
    if s == [] then 0 else 10 * DigitsValue(s[..|s| - 1]) + DigitValue(s[|s| - 1])
  }

  lemma {:induction false} NatTextRoundTrip(n: nat)
    ensures |NatText(n)| > 0 && AllDigits(NatText(n))
    ensures DigitsValue(NatText(n)) == n
    decreases n
  {
    if n >= 10 {
      NatTextRoundTrip(n / 10);
      var t := NatText(n);
      assert t[..|t| - 1] == NatText(n / 10);
      assert DigitValue(DigitChar(n % 10)) == n % 10;
    } else {
      assert DigitValue(DigitChar(n)) == n;
    }
  }

  /** Length of the run of digits that starts `s`. */
  function DigitRun(s: string): (n: nat)
    ensures n <= |s| && AllDigits(s[..n])
    ensures n < |s| ==> !IsDigit(s[n])
  {
    if s != [] && IsDigit(s[0]) then
      var n := 1 + DigitRun(s[1..]);
      assert s[..n] == [s[0]] + s[1..][..n - 1];
      n
    else 0
  }

  /** Text that may follow a number without running into its digits. */
  predicate Delimits(rest: string) {
    rest == [] || !IsDigit(rest[0])
  }

  lemma {:induction false} DigitRunStopsAt(d: string, rest: string)
    requires AllDigits(d) && Delimits(rest)
    ensures DigitRun(d + rest) == |d|
  {
    if d != [] {
      assert (d + rest)[1..] == d[1..] + rest;
      DigitRunStopsAt(d[1..], rest);
    }
  }

  function IntText(i: int): string {
    if i < 0 then "-" + NatText(-i) else NatText(i)
  }

  // ---------------------------------------------------------------------------
  // Strings: only '"' and '\' are escaped, each by a preceding backslash.

  function Escape(s: string): string {
    if s == [] then []
    else (if s[0] == '"' || s[0] == '\\' then ['\\', s[0]] else [s[0]]) + Escape(s[1..])
  }

  function Quote(s: string): string {
    "\"" + Escape(s) + "\""
  }

  // ---------------------------------------------------------------------------
  // Encoding (json.dumps)

  function Encode(v: Json): string
    decreases v, 1
  {
    match v
    case JNull => "null"
    case JBool(b) => if b then "true" else "false"
    case JInt(i) => IntText(i)
    case JStr(s) => Quote(s)
    case JArr(items) => "[" + EncodeItems(items) + "]"
    case JObj(members) => "{" + EncodeMembers(members) + "}"
  }

  /** The items of an array, separated by ", ". */
  function EncodeItems(items: seq<Json>): string
    decreases items, 0
  {
    if items == [] then ""
    else if |items| == 1 then Encode(items[0])
    else Encode(items[0]) + ", " + EncodeItems(items[1..])
  }

  /** The members of an object, each `"key": value`, separated by ", ". */
  function EncodeMembers(members: seq<Member>): string
    decreases members, 0
  {
    if members == [] then ""
    else
      var m := members[0];
      var text := Quote(m.key) + ": " + Encode(m.value);
      if |members| == 1 then text else text + ", " + EncodeMembers(members[1..])
  }

  // ---------------------------------------------------------------------------
  // Decoding (json.loads). Each parser returns the value it read and the
  // text left after it; what is left is always shorter than the input.

  /** Reads the body of a string after its opening quote, up to and including the closing quote. */
  function ParseString(s: string): (r: Option<(string, string)>)
    ensures r.Some? ==> |r.value.1| < |s|
  {
    if s == [] then None
    else if s[0] == '"' then Some(("", s[1..]))
    else if s[0] == '\\' then
      if |s| > 1 && (s[1] == '"' || s[1] == '\\') then
        match ParseString(s[2..])
        case None => None
        case Some((t, rest)) => Some(([s[1]] + t, rest))
      else None
    else
      match ParseString(s[1..])
      case None => None
      case Some((t, rest)) => Some(([s[0]] + t, rest))
  }

  /** Reads an optionally negative run of digits. */
  function ParseInt(s: string): (r: Option<(Json, string)>)
    ensures r.Some? ==> |r.value.1| < |s|
  {
    var negative := s != [] && s[0] == '-';
    var body := if negative then s[1..] else s;
    var n := DigitRun(body);
    if n == 0 then None
    else
      var m: int := DigitsValue(body[..n]);
      Some((if negative then JInt(-m) else JInt(m), body[n..]))
  }

  function ParseValue(s: string): (r: Option<(Json, string)>)
    ensures r.Some? ==> |r.value.1| < |s|
    decreases |s|, 0
  {
    if s == [] then None
    else if "null" <= s then Some((JNull, s[4..]))
    else if "true" <= s then Some((JBool(true), s[4..]))
    else if "false" <= s then Some((JBool(false), s[5..]))
    else if s[0] == '"' then
      match ParseString(s[1..])
      case None => None
      case Some((t, rest)) => Some((JStr(t), rest))
    else if s[0] == '-' || IsDigit(s[0]) then ParseInt(s)
    else if s[0] == '[' then
      if |s| > 1 && s[1] == ']' then Some((JArr([]), s[2..]))
      else
        match ParseItems(s[1..])
        case None => None
        case Some((items, rest)) => Some((JArr(items), rest))
    else if s[0] == '{' then
      if |s| > 1 && s[1] == '}' then Some((JObj([]), s[2..]))
      else
        match ParseMembers(s[1..])
        case None => None
        case Some((members, rest)) => Some((JObj(members), rest))
    else None
  }

  /** Reads one or more array items and the closing bracket. */
  function ParseItems(s: string): (r: Option<(seq<Json>, string)>)
    ensures r.Some? ==> |r.value.1| < |s|
    decreases |s|, 1
  {
    match ParseValue(s)
    case None => None
    case Some((v, rest)) =>
      if rest != [] && rest[0] == ']' then Some(([v], rest[1..]))
      else if ", " <= rest then
        match ParseItems(rest[2..])
        case None => None
        case Some((vs, rest')) => Some(([v] + vs, rest'))
      else None
  }

  /** Reads one or more object members and the closing brace. */
  function ParseMembers(s: string): (r: Option<(seq<Member>, string)>)
    ensures r.Some? ==> |r.value.1| < |s|
    decreases |s|, 1
  {
    if s == [] || s[0] != '"' then None
    else
      match ParseString(s[1..])
      case None => None
      case Some((key, afterKey)) =>
        if !(": " <= afterKey) then None
        else
          match ParseValue(afterKey[2..])
          case None => None
          case Some((v, rest)) =>
            if rest != [] && rest[0] == '}' then Some(([Member(key, v)], rest[1..]))
            else if ", " <= rest then
              match ParseMembers(rest[2..])
              case None => None
              case Some((ms, rest')) => Some(([Member(key, v)] + ms, rest'))
            else None
  }

  /** The whole text must be one value: `json.loads`, with `None` for a JSONDecodeError. */
  function Decode(s: string): Option<Json> {
    match ParseValue(s)
    case Some((v, rest)) => if rest == [] then Some(v) else None
    case None => None
  }

  // ---------------------------------------------------------------------------
  // Round trip

  lemma {:induction false} Regroup3(a: string, b: string, c: string)
    ensures a + b + c == a + (b + c)
  {
  }

  /** One character of an escaped body, then the rest of the body. */
  lemma {:induction false} ParseStringStep(c: char, tail: string, u: string, rest: string)
    requires ParseString(tail) == Some((u, rest))
    ensures c != '"' && c != '\\' ==> ParseString([c] + tail) == Some(([c] + u, rest))
    ensures c == '"' || c == '\\' ==> ParseString(['\\', c] + tail) == Some(([c] + u, rest))
  {
    assert ([c] + tail)[1..] == tail;
    assert (['\\', c] + tail)[2..] == tail;
  }

  lemma {:induction false} ParseStringEscaped(t: string, rest: string)
    ensures ParseString(Escape(t) + "\"" + rest) == Some((t, rest))
  {
    if t == [] {
      assert Escape(t) + "\"" + rest == "\"" + rest;
    } else {
      var c := t[0];
      var head := if c == '"' || c == '\\' then ['\\', c] else [c];
      var tail := Escape(t[1..]) + "\"" + rest;
      assert Escape(t) == head + Escape(t[1..]);
      Regroup3(head, Escape(t[1..]), "\"");
      Regroup3(head, Escape(t[1..]) + "\"", rest);
      ParseStringEscaped(t[1..], rest);
      ParseStringStep(c, tail, t[1..], rest);
      assert [c] + t[1..] == t;
    }
  }

  lemma {:induction false} ParseIntText(i: int, rest: string)
    requires Delimits(rest)
    ensures ParseInt(IntText(i) + rest) == Some((JInt(i), rest))
  {
    var m: nat := if i < 0 then -i else i;
    var d := NatText(m);
    NatTextRoundTrip(m);
    DigitRunStopsAt(d, rest);
    var body := d + rest;
    assert body[..|d|] == d;
    assert body[|d|..] == rest;
    if i < 0 {
      assert IntText(i) + rest == "-" + body;
      assert ("-" + body)[1..] == body;
    } else {
      assert IntText(i) + rest == body;
      assert !(body[0] == '-');
    }
  }

  /** The first character of an encoding never closes a bracket or a brace. */
  lemma {:induction false} EncodeOpens(v: Json)
    ensures |Encode(v)| > 0
    ensures Encode(v)[0] in "ntf\"-0123456789[{"
  {
    match v
    case JInt(i) =>
      var m: nat := if i < 0 then -i else i;
      NatTextRoundTrip(m);
      assert IsDigit(NatText(m)[0]);
    case _ =>
  }

  /** A text that starts with none of 'n', 't', 'f' is not read as a keyword. */
  lemma {:induction false} NotKeyword(s: string)
    requires s != [] && s[0] != 'n' && s[0] != 't' && s[0] != 'f'
    ensures !("null" <= s) && !("true" <= s) && !("false" <= s)
  {
  }

  lemma {:induction false} ParseValueArray(s: string)
    requires |s| > 1 && s[0] == '[' && s[1] != ']'
    ensures ParseValue(s) == match ParseItems(s[1..])
                             case None => None
                             case Some((items, rest)) => Some((JArr(items), rest))
  {
    NotKeyword(s);
  }

  lemma {:induction false} ParseValueObject(s: string)
    requires |s| > 1 && s[0] == '{' && s[1] != '}'
    ensures ParseValue(s) == match ParseMembers(s[1..])
                             case None => None
                             case Some((members, rest)) => Some((JObj(members), rest))
  {
    NotKeyword(s);
  }

  lemma {:induction false} ParseValueEmpty(s: string, rest: string)
    requires s == "[]" + rest || s == "{}" + rest
    ensures ParseValue(s) == Some((if s[0] == '[' then JArr([]) else JObj([]), rest))
  {
    NotKeyword(s);
    assert s[2..] == rest;
  }

  lemma {:induction false} ParseValueString(s: string)
    requires s != [] && s[0] == '"'
    ensures ParseValue(s) == match ParseString(s[1..])
                             case None => None
                             case Some((t, rest)) => Some((JStr(t), rest))
  {
    NotKeyword(s);
  }

  lemma {:induction false} ParseValueNumber(s: string)
    requires s != [] && (s[0] == '-' || IsDigit(s[0]))
    ensures ParseValue(s) == ParseInt(s)
  {
    NotKeyword(s);
  }

  lemma {:induction false} ParseEncodedKeyword(v: Json, rest: string)
    requires v.JNull? || v.JBool?
    ensures ParseValue(Encode(v) + rest) == Some((v, rest))
  {
    var s := Encode(v) + rest;
    if v.JNull? {
      assert s[..4] == "null" && s[4..] == rest;
    } else if v.b {
      assert s[0] == 't' && s[..4] == "true" && s[4..] == rest;
    } else {
      assert s[0] == 'f' && s[..5] == "false" && s[5..] == rest;
    }
  }

  lemma {:induction false} ParseEncodedString(t: string, rest: string)
    ensures ParseValue(Encode(JStr(t)) + rest) == Some((JStr(t), rest))
  {
    var s := Encode(JStr(t)) + rest;
    Regroup3("\"", Escape(t), "\"");
    Regroup3("\"", Escape(t) + "\"", rest);
    assert s[1..] == Escape(t) + "\"" + rest;
    ParseStringEscaped(t, rest);
    ParseValueString(s);
  }

  lemma {:induction false} ParseEncodedInt(i: int, rest: string)
    requires Delimits(rest)
    ensures ParseValue(Encode(JInt(i)) + rest) == Some((JInt(i), rest))
  {
    ParseIntText(i, rest);
    EncodeOpens(JInt(i));
    ParseValueNumber(Encode(JInt(i)) + rest);
  }

  lemma {:induction false} ParseEncodedArray(items: seq<Json>, rest: string)
    ensures ParseValue(Encode(JArr(items)) + rest) == Some((JArr(items), rest))
    decreases JArr(items), 0
  {
    var s := Encode(JArr(items)) + rest;
    if items == [] {
      assert EncodeItems(items) == "";
      assert s == "[]" + rest;
      ParseValueEmpty(s, rest);
    } else {
      var inner := EncodeItems(items) + "]" + rest;
      Regroup3("[", EncodeItems(items), "]");
      Regroup3("[", EncodeItems(items) + "]", rest);
      assert s[1..] == inner;
      ParseItemsEncoded(items, rest);
      EncodeOpens(items[0]);
      ItemsOpen(items, rest);
      ParseValueArray(s);
    }
  }

  lemma {:induction false} ParseEncodedObject(members: seq<Member>, rest: string)
    ensures ParseValue(Encode(JObj(members)) + rest) == Some((JObj(members), rest))
    decreases JObj(members), 0
  {
    var s := Encode(JObj(members)) + rest;
    if members == [] {
      assert EncodeMembers(members) == "";
      assert s == "{}" + rest;
      ParseValueEmpty(s, rest);
    } else {
      var inner := EncodeMembers(members) + "}" + rest;
      Regroup3("{", EncodeMembers(members), "}");
      Regroup3("{", EncodeMembers(members) + "}", rest);
      assert s[1..] == inner;
      ParseMembersEncoded(members, rest);
      MembersLayout(members, rest);
      ParseValueObject(s);
    }
  }

  /** The body of a non-empty array starts with its first item. */
  lemma {:induction false} ItemsOpen(items: seq<Json>, rest: string)
    requires items != []
    ensures (EncodeItems(items) + "]" + rest)[0] == Encode(items[0])[0]
  {
    EncodeOpens(items[0]);
  }

  lemma {:induction false} ParseEncoded(v: Json, rest: string)
    requires Delimits(rest)
    ensures ParseValue(Encode(v) + rest) == Some((v, rest))
    decreases v, 1
  {
    match v
    case JNull => ParseEncodedKeyword(v, rest);
    case JBool(_) => ParseEncodedKeyword(v, rest);
    case JInt(i) => ParseEncodedInt(i, rest);
    case JStr(t) => ParseEncodedString(t, rest);
    case JArr(items) => ParseEncodedArray(items, rest);
    case JObj(members) => ParseEncodedObject(members, rest);
  }

  /** The text that follows the first item of an array's body. */
  function ItemsTail(items: seq<Json>): string
    requires items != []
  {
    if |items| == 1 then "" else ", " + EncodeItems(items[1..])
  }

  /** What follows an item: the closing bracket, or ", " and the next items. */
  lemma {:induction false} AfterItem(items: seq<Json>, rest: string)
    requires items != []
    ensures var after := ItemsTail(items) + "]" + rest;
      && EncodeItems(items) + "]" + rest == Encode(items[0]) + after
      && after != [] && Delimits(after)
      && (|items| == 1 ==> after[0] == ']' && after[1..] == rest)
      && (|items| > 1 ==> after[0] == ',' && ", " <= after
                          && after[2..] == EncodeItems(items[1..]) + "]" + rest)
  {
    var after := ItemsTail(items) + "]" + rest;
    assert EncodeItems(items) == Encode(items[0]) + ItemsTail(items);
    Regroup3(Encode(items[0]), ItemsTail(items), "]");
    Regroup3(Encode(items[0]), ItemsTail(items) + "]", rest);
    if |items| > 1 {
      var next := EncodeItems(items[1..]) + "]" + rest;
      Regroup3(", ", EncodeItems(items[1..]), "]");
      Regroup3(", ", EncodeItems(items[1..]) + "]", rest);
      assert after == ", " + next;
      assert after[2..] == next;
    } else {
      assert after == "]" + rest;
    }
  }

  /** ParseItems on a last item. */
  lemma {:induction false} ParseLastItem(s: string, v: Json, after: string)
    requires ParseValue(s) == Some((v, after))
    requires after != [] && after[0] == ']'
    ensures ParseItems(s) == Some(([v], after[1..]))
  {
  }

  /** ParseItems on an item followed by more items. */
  lemma {:induction false} ParseNextItem(s: string, v: Json, after: string, vs: seq<Json>, rest: string)
    requires ParseValue(s) == Some((v, after))
    requires after != [] && after[0] == ',' && ", " <= after
    requires ParseItems(after[2..]) == Some((vs, rest))
    ensures ParseItems(s) == Some(([v] + vs, rest))
  {
  }

  lemma {:induction false} ParseItemsEncoded(items: seq<Json>, rest: string)
    requires items != []
    ensures ParseItems(EncodeItems(items) + "]" + rest) == Some((items, rest))
    decreases items, 0
  {
    var v := items[0];
    var after := ItemsTail(items) + "]" + rest;
    var s := EncodeItems(items) + "]" + rest;
    AfterItem(items, rest);
    ParseEncoded(v, after);
    if |items| == 1 {
      ParseLastItem(s, v, after);
      assert items == [v];
    } else {
      ParseItemsEncoded(items[1..], rest);
      ParseNextItem(s, v, after, items[1..], rest);
      assert [v] + items[1..] == items;
    }
  }

  /** ParseMembers on a last member, whose key and value have been read. */
  lemma {:induction false} ParseLastMember(s: string, key: string, t: string, v: Json, after: string)
    requires s != [] && s[0] == '"'
    requires ParseString(s[1..]) == Some((key, ": " + t))
    requires ParseValue(t) == Some((v, after))
    requires after != [] && after[0] == '}'
    ensures ParseMembers(s) == Some(([Member(key, v)], after[1..]))
  {
    assert ": " <= ": " + t;
    assert (": " + t)[2..] == t;
  }

  /** The text that follows the first member of an object's body. */
  function MembersTail(members: seq<Member>): string
    requires members != []
  {
    if |members| == 1 then "" else ", " + EncodeMembers(members[1..])
  }

  /** What follows a member's value: the closing brace, or ", " and the next members. */
  lemma {:induction false} AfterMember(members: seq<Member>, rest: string)
    requires members != []
    ensures var after := MembersTail(members) + "}" + rest;
      && after != []
      && (|members| == 1 ==> after[0] == '}' && after[1..] == rest)
      && (|members| > 1 ==> after[0] == ',' && ", " <= after
                            && after[2..] == EncodeMembers(members[1..]) + "}" + rest)
  {
    var after := MembersTail(members) + "}" + rest;
    if |members| > 1 {
      var next := EncodeMembers(members[1..]) + "}" + rest;
      assert after == ", " + next;
      assert after[..2] == ", " && after[2..] == next;
    } else {
      assert after == "}" + rest;
      assert after[1..] == rest;
    }
  }

  lemma {:induction false} Regroup6(a: string, b: string, c: string, d: string, e: string, f: string)
    ensures a + b + c + d + e + f == a + (b + (c + (d + e + f)))
  {
  }

  lemma {:induction false} MembersLayout(members: seq<Member>, rest: string)
    requires members != []
    ensures EncodeMembers(members) + "}" + rest
         == "\"" + (Escape(members[0].key) + "\"" + (": " + (Encode(members[0].value) + (MembersTail(members) + "}" + rest))))
  {
    var m := members[0];
    var x := ": " + (Encode(m.value) + (MembersTail(members) + "}" + rest));
    assert EncodeMembers(members) == Quote(m.key) + ": " + Encode(m.value) + MembersTail(members);
    Regroup6(Quote(m.key), ": ", Encode(m.value), MembersTail(members), "}", rest);
    assert EncodeMembers(members) + "}" + rest == Quote(m.key) + x;
    Regroup3("\"" + Escape(m.key), "\"", x);
    Regroup3("\"", Escape(m.key) + "\"", x);
    Regroup3("\"", Escape(m.key), "\"");
  }

  /** Reading the first member's key and value. */
  lemma {:induction false} ParseMemberHead(members: seq<Member>, rest: string)
    requires members != []
    ensures var s := EncodeMembers(members) + "}" + rest;
      var after := MembersTail(members) + "}" + rest;
      var valueText := Encode(members[0].value) + after;
      && s != [] && s[0] == '"'
      && ParseString(s[1..]) == Some((members[0].key, ": " + valueText))
      && ParseValue(valueText) == Some((members[0].value, after))
    decreases members, 0
  {
    var m := members[0];
    var after := MembersTail(members) + "}" + rest;
    var valueText := Encode(m.value) + after;
    var s := EncodeMembers(members) + "}" + rest;
    MembersLayout(members, rest);
    assert s[1..] == Escape(m.key) + "\"" + (": " + valueText);
    ParseStringEscaped(m.key, ": " + valueText);
    AfterMember(members, rest);
    ParseEncoded(m.value, after);
  }

  /** ParseMembers reads the first member, then stops or goes on to the next one. */
  lemma {:induction false} ParseMembersStep(members: seq<Member>, rest: string)
    requires members != []
    ensures |members| == 1 ==> ParseMembers(EncodeMembers(members) + "}" + rest) == Some((members, rest))
    ensures |members| > 1 ==>
      ParseMembers(EncodeMembers(members) + "}" + rest)
        == match ParseMembers(EncodeMembers(members[1..]) + "}" + rest)
           case None => None
           case Some((ms, r)) => Some(([members[0]] + ms, r))
    decreases members, 1
  {
    var m := members[0];
    var after := MembersTail(members) + "}" + rest;
    var valueText := Encode(m.value) + after;
    var s := EncodeMembers(members) + "}" + rest;
    ParseMemberHead(members, rest);
    AfterMember(members, rest);
    if |members| == 1 {
      ParseLastMember(s, m.key, valueText, m.value, after);
      assert members == [m];
    }
  }

  lemma {:induction false} ParseMembersEncoded(members: seq<Member>, rest: string)
    requires members != []
    ensures ParseMembers(EncodeMembers(members) + "}" + rest) == Some((members, rest))
    decreases members, 2
  {
    ParseMembersStep(members, rest);
    if |members| > 1 {
      ParseMembersEncoded(members[1..], rest);
      assert [members[0]] + members[1..] == members;
    }
  }

  /** Everything `json.dumps` writes, `json.loads` reads back unchanged. */
  lemma {:induction false} DecodeEncode(v: Json)
    ensures Decode(Encode(v)) == Some(v)
  {
    ParseEncoded(v, "");
    assert Encode(v) + "" == Encode(v);
  }

  /** Texts the decoder refuses exist: an empty text and an unterminated object. */
  lemma {:induction false} SomeTextsDoNotDecode()
    ensures Decode("") == None
    ensures Decode("{") == None
    ensures Decode("null!") == None
  {
    assert ParseValue("null!") == Some((JNull, "!"));
  }

  /** The only text that decodes to `null` is "null" itself. */
  lemma {:induction false} DecodesToNull(s: string)
    ensures Decode(s) == Some(JNull) <==> s == "null"
  {
    if Decode(s) == Some(JNull) {
      var r := ParseValue(s);
      assert r.Some? && r.value.0 == JNull && r.value.1 == [];
      assert "null" <= s;
      assert s == "null" + s[4..];
    } else {
      assert ParseValue("null") == Some((JNull, ""));
    }
  }
}

=== FILE: workqueue.dfy ===
/**
  The distributed work queue: producers append JSON-encoded work items to a
  Redis list named by the queue, and workers pop items from its head, decode
  them and hand them to a worker function.

  The Redis list is the field `items` (head first). Popping from an empty
  list ends the wait with nothing, which the source reports as None. The
  worker's endless loop is run for a given number of rounds.
*/
module WorkQueue {
  import opened Wrappers
  import opened Json

  const DefaultQueueName := "work_queue"

  /**
    What `dequeue_work` makes of a popped text: the decoded value, or the
    text itself when it is not JSON.
  */
  function Interpret(raw: string): (v: Json)
    ensures Decode(raw) == Some(v) || (Decode(raw).None? && v == JStr(raw))
  {
    match Decode(raw)
    case Some(v) => v
    case None => JStr(raw)
  }

  /** Every value a producer enqueues is what a worker dequeues. */
  lemma InterpretEncode(x: Json)
    ensures Interpret(Encode(x)) == x
  {
    DecodeEncode(x);
  }

  /**
    A popped item reads as None exactly when it is the text "null", so an
    enqueued None cannot be told apart from a wait that ended empty.
  */
  lemma InterpretNull(raw: string)
    ensures Interpret(raw) == JNull <==> raw == "null"
  {
    DecodesToNull(raw);
  }

  /** The texts a sequence of producers' items is stored as, in order. */
  function EncodeAll(xs: seq<Json>): (r: seq<string>)
    ensures |r| == |xs|
  {
    if xs == [] then [] else [Encode(xs[0])] + EncodeAll(xs[1..])
  }

  /** The values a sequence of popped texts is read as, in order. */
  function InterpretAll(raws: seq<string>): (r: seq<Json>)
    ensures |r| == |raws|
  {
    if raws == [] then [] else [Interpret(raws[0])] + InterpretAll(raws[1..])
  }

  lemma {:induction false} EncodeAllAppend(xs: seq<Json>, x: Json)
    ensures EncodeAll(xs + [x]) == EncodeAll(xs) + [Encode(x)]
  {
    if xs != [] {
      assert (xs + [x])[1..] == xs[1..] + [x];
      EncodeAllAppend(xs[1..], x);
    }
  }

  /** Reading back what was encoded gives the original values, in order. */
  lemma {:induction false} InterpretAllEncodeAll(xs: seq<Json>)
    ensures InterpretAll(EncodeAll(xs)) == xs
  {
    if xs != [] {
      InterpretEncode(xs[0]);
      InterpretAllEncodeAll(xs[1..]);
    }
  }

  /** One round of the worker loop. */
  datatype StepResult =
    | Waiting                                     // the queue was empty
    | Handled(item: Json, outcome: Outcome<string>) // the item popped and what the worker function did with it

  /** The round that handles the popped text `raw`; a failure is reported and swallowed. */
  function Handle(handler: Json -> Outcome<string>, raw: string): (r: StepResult)
    ensures r.Handled? && r.item == Interpret(raw) && r.outcome == handler(r.item)
  {
    Handled(Interpret(raw), handler(Interpret(raw)))
  }

  class DistributedWorkQueue {
    const queueName: string
    /** The Redis list stored under `queueName`, head first. */
    var items: seq<string>

    constructor (queueName: string, existing: seq<string>)
      ensures this.queueName == queueName && items == existing
    {
      this.queueName := queueName;
      items := existing;
    }

    /** Appends the item's JSON text at the tail of the list. */
    method EnqueueWork(item: Json)
      modifies this
      ensures items == old(items) + [Encode(item)]
    {
      items := items + [Encode(item)];
    }

    /**
      Pops the head of the list and reads it; on an empty list the wait ends
      with nothing and the result is None.
    */
    method DequeueWork(timeout: int) returns (item: Json)
      modifies this
      ensures old(items) == [] ==> item == JNull && items == []
      ensures old(items) != [] ==> item == Interpret(old(items)[0]) && items == old(items)[1..]
    {
      if items == [] {
        return JNull;
      }
      var raw := items[0];
      items := items[1..];
      item := Interpret(raw);
    }

    /**
      One round of `worker_process`: the item is popped before the worker
      function runs, so the queue afterwards is the same whether it succeeds
      or fails; a failed item is not put back.
    */
    method WorkerStep(handler: Json -> Outcome<string>) returns (step: StepResult)
      modifies this
      ensures old(items) == [] ==> step == Waiting && items == []
      ensures old(items) != [] ==> step == Handle(handler, old(items)[0]) && items == old(items)[1..]
    {
      if items == [] {
        return Waiting;
      }
      var item := DequeueWork(0);
      step := Handled(item, handler(item));
    }

    /**
      `rounds` rounds of `worker_process`: the first items of the queue are
      handled once each, in queue order, and the remaining rounds wait.
    */
    method RunWorker(handler: Json -> Outcome<string>, rounds: nat) returns (log: seq<StepResult>)
      modifies this
      ensures |log| == rounds
      ensures var k := if rounds < |old(items)| then rounds else |old(items)|;
        && items == old(items)[k..]
        && (forall i :: 0 <= i < k ==> log[i] == Handle(handler, old(items)[i]))
        && (forall i :: k <= i < rounds ==> log[i] == Waiting)
    {
      log := [];
      var n := 0;
      while n < rounds
        invariant 0 <= n <= rounds && |log| == n
        invariant var k := if n < |old(items)| then n else |old(items)|;
          && items == old(items)[k..]
          && (forall i :: 0 <= i < k ==> log[i] == Handle(handler, old(items)[i]))
          && (forall i :: k <= i < n ==> log[i] == Waiting)
      {
        var step := WorkerStep(handler);
        log := log + [step];
        n := n + 1;
      }
    }
  }

  /**
    A producer enqueues `xs` on a fresh queue and a worker then dequeues as
    many items: it receives exactly `xs`, in the same order.
  */
  method FifoRoundTrip(xs: seq<Json>) returns (ys: seq<Json>)
    ensures ys == xs
  {
    var queue := new DistributedWorkQueue(DefaultQueueName, []);
    var i := 0;
    while i < |xs|
      invariant 0 <= i <= |xs|
      invariant queue.items == EncodeAll(xs[..i])
    {
      EncodeAllAppend(xs[..i], xs[i]);
      assert xs[..i + 1] == xs[..i] + [xs[i]];
      queue.EnqueueWork(xs[i]);
      i := i + 1;
    }
    assert xs[..|xs|] == xs;
    ys := [];
    while |ys| < |xs|
      invariant |ys| <= |xs| && ys == xs[..|ys|]
      invariant queue.items == EncodeAll(xs[|ys|..])
    {
      var j := |ys|;
      assert xs[j..] == [xs[j]] + xs[j + 1..];
      InterpretEncode(xs[j]);
      var item := queue.DequeueWork(0);
      ys := ys + [item];
      assert ys == xs[..j + 1];
    }
  }
}

=== FILE: wrappers.dfy ===
/** Failure-carrying result types shared by the model. */
module Wrappers {

  /** A value that may be absent. */
  datatype Option<+T> = None | Some(value: T)

  /** The value of a call that either returns or raises. */
  datatype Result<+R, +E> = Success(value: R) | Failure(error: E)

  /** The outcome of a call whose return value is ignored: it returned, or it raised. */
  datatype Outcome<+E> = Pass | Fail(error: E)
}
